=== FILE: README.md ===
# PerformAudioPassThru request: a verified model

This project models the mobile `PerformAudioPassThru` request command of the
SmartDeviceLink core. The command handles one request from a mobile
application. It checks the request, then asks the HMI to speak the initial
prompt (`TTS.Speak`) and to capture audio (`UI.PerformAudioPassThru`). It waits
for the answers and folds them into a mobile response with one result
code.

The model has six modules:

- `ResultCodes` (results.dfy) holds the HMI and mobile result enumerations,
  the two interfaces (UI, TTS) and `ResponseInfo`, one interface's outcome.
- `Messages` (messages.dfy) holds the request fields the command reads, the
  application and its HMI level, the HMI events, and the effects the command
  emits. It also holds `Collaborators`, a record of functions defined outside
  this command that are left uninterpreted: every result holds for every
  choice of them that meets the lemma's requires.
- `Aggregation` (aggregation.dfy) is the decision ladder of
  `PrepareResponseParameters` and `PrepareAudioPassThruResultCodeForResponse`,
  with lemmas for each rung.
- `RequestFields` (request_fields.dfy) holds the text checks of `Run`, the
  prompt test, and the parameters of the UI request.
- `Transitions` (transitions.dfy) is the command as a state machine on values.
  `Command` holds the member fields. Each entry point is a step function that
  returns the new fields and the effects it emits, in order. The lemmas state
  the request's promises, one call at a time and over whole sequences of
  events.
- `AudioPassThruCommand` (command.dfy) holds the class
  `PerformAudioPassThruRequest`. Its fields are updated in place, and a ghost
  trace `Sent` records every HMI message and notification, and the
  application-manager calls that start, stop or re-arm the capture.
  `BeginAudioPassThrough` and the start of the capture thread are one effect.
  `EndAudioPassThrough` is not in the trace; what it returns is a parameter.
  Each entry point is proved to give the fields and trace that the matching
  step function of `Transitions` gives. The helpers are proved against
  functions of `RequestFields` and `Aggregation`, or against the trace they
  add.

Some behaviour of the code deserves a note:

- A UI `REJECTED` is answered at once and `FinishTTSSpeak` is skipped, so
  neither speech nor capture is stopped (perform_audio_pass_thru_request.cc:132-139).
  See `Transitions.UiRejectedRespondsAtOnce`.
- Abort does not always win. The code tests for it only after the "UI ok,
  TTS unsupported" rung and after `IsResultCodeUnsupported` (lines 206-214).
  See `Aggregation.UnsupportedOutranksAbort`.
- After a successful Speak, the request timeout is re-armed with
  `default_timeout()`, which `Init` has already raised by `max_duration`
  (lines 68-72 and 164-165). See `Transitions.SpeechOutcomeStartsRecording`.
- The fallback code is WARNINGS whenever the UI answered SUCCESS and TTS did
  not, and that includes a TTS that was never asked. So a capture without a
  prompt that the UI answers SUCCESS is reported as WARNINGS (lines 424-426).
  See `Transitions.PromptlessSuccessReportsWarnings`.
- A capture can start after the UI has already answered. While both answers
  are awaited, the UI may answer first, with any code, REJECTED included.
  If the TTS_Speak answer then has a code that starts recording, the code
  sends OnRecordStart, starts the capture and re-arms the timeout
  (lines 149-166). It then responds, and no StopAudioPassThru follows
  (lines 181-192). See `Transitions.CaptureStartsAfterUiAnswer`.
- Info strings are combined by `MergeInfos`, which is a collaborator here.

## Model

| member | source | states |
|---|---|---|
| AudioPassThruCommand.PerformAudioPassThruRequest.constructor | src/components/application_manager/src/commands/mobile/perform_audio_pass_thru_request.cc:48-57 | Both awaiting flags start false, the icon is taken to exist, both result slots start at INVALID_ENUM, and nothing has been sent. |
| AudioPassThruCommand.PerformAudioPassThruRequest.Init | src/components/application_manager/src/commands/mobile/perform_audio_pass_thru_request.cc:68-72 | Returns true. The default timeout becomes the timeout plus max_duration, as `Transitions.Init` gives it; no other field changes. |
| AudioPassThruCommand.PerformAudioPassThruRequest.Run | src/components/application_manager/src/commands/mobile/perform_audio_pass_thru_request.cc:74-114 | The new fields and the emitted effects are exactly those of `Transitions.Run`: validation, the icon check, then the HMI requests in their order. |
| AudioPassThruCommand.PerformAudioPassThruRequest.OnEvent | src/components/application_manager/src/commands/mobile/perform_audio_pass_thru_request.cc:116-193 | The new fields and the emitted effects are exactly those of `Transitions.OnEvent` for the event's id. An unknown id changes nothing. |
| AudioPassThruCommand.PerformAudioPassThruRequest.OnPerformAudioPassThruResponse | src/components/application_manager/src/commands/mobile/perform_audio_pass_thru_request.cc:123-142 | The UI case. It clears the UI flag and stores the code and info. On REJECTED it answers at once; otherwise it calls FinishTTSSpeak and then the response step. |
| AudioPassThruCommand.PerformAudioPassThruRequest.OnSpeakResponse | src/components/application_manager/src/commands/mobile/perform_audio_pass_thru_request.cc:143-168 | The TTS_Speak case. It stores the code and info and clears the TTS flag. Recording starts only for the codes in `StartsRecording`, then the response step runs. |
| AudioPassThruCommand.PerformAudioPassThruRequest.RespondWhenComplete | src/components/application_manager/src/commands/mobile/perform_audio_pass_thru_request.cc:181-192 | While something is still awaited, nothing is sent. Otherwise exactly one response is sent, built by `PrepareResponseParameters`, with no info when the info string is empty. |
| AudioPassThruCommand.PerformAudioPassThruRequest.OnTimeOut | src/components/application_manager/src/commands/mobile/perform_audio_pass_thru_request.cc:61-66 | It emits FinishTTSSpeak's effects, then the base request's timeout, and changes no field. |
| AudioPassThruCommand.PerformAudioPassThruRequest.FinishTTSSpeak | src/components/application_manager/src/commands/mobile/perform_audio_pass_thru_request.cc:372-383 | It stops the capture when EndAudioPassThrough reports one. It sends TTS.StopSpeaking only while the Speak response is awaited. No field changes. |
| AudioPassThruCommand.PerformAudioPassThruRequest.PrepareResponseParameters | src/components/application_manager/src/commands/mobile/perform_audio_pass_thru_request.cc:195-229 | Success, code and info are those of `Aggregation.PrepareResponseParameters`, which is also the new tts_info_. |
| AudioPassThruCommand.PerformAudioPassThruRequest.SendSpeakRequest | src/components/application_manager/src/commands/mobile/perform_audio_pass_thru_request.cc:231-251 | A loop copies every initial_prompt chunk, text and type, in order. One TTS.Speak with those chunks is sent, and the TTS flag is set. |
| AudioPassThruCommand.PerformAudioPassThruRequest.SendPerformAudioPassThruRequest | src/components/application_manager/src/commands/mobile/perform_audio_pass_thru_request.cc:253-300 | One UI.PerformAudioPassThru is sent, with the parameters of `PerformParamsOf` for the current message (after any icon removal). |
| AudioPassThruCommand.PerformAudioPassThruRequest.SendRecordStartNotification | src/components/application_manager/src/commands/mobile/perform_audio_pass_thru_request.cc:302-310 | One UI.OnRecordStart notification for this application is sent. |
| AudioPassThruCommand.PerformAudioPassThruRequest.StartMicrophoneRecording | src/components/application_manager/src/commands/mobile/perform_audio_pass_thru_request.cc:312-324 | The capture starts with the request's max_duration, sampling rate, bits per sample and audio type. |
| AudioPassThruCommand.PerformAudioPassThruRequest.IsWhiteSpaceExist | src/components/application_manager/src/commands/mobile/perform_audio_pass_thru_request.cc:326-370 | The scan with its early return answers true exactly when `ContainsInvalidText` holds: some non-empty prompt chunk fails CheckSyntax, or a present display text fails it (empty or not). |
| AudioPassThruCommand.PerformAudioPassThruRequest.IsWaitingHMIResponse | src/components/application_manager/src/commands/mobile/perform_audio_pass_thru_request.cc:385-388 | True exactly while the Speak answer or the UI answer is still awaited. |
| AudioPassThruCommand.PerformAudioPassThruRequest.IsAudioPassThruIconParamValid | src/components/application_manager/src/commands/mobile/perform_audio_pass_thru_request.cc:437-451 | For a present icon: true exactly when the icon check keeps the icon in the message, for any application. |
| AudioPassThruCommand.PerformAudioPassThruRequest.ProcessAudioPassThruIcon | src/components/application_manager/src/commands/mobile/perform_audio_pass_thru_request.cc:390-451 | The new icon flag and message are those of `Transitions.ProcessAudioPassThruIcon` (see `Transitions.IconHandling`). |
| Aggregation.CommonResult | src/components/application_manager/src/commands/mobile/perform_audio_pass_thru_request.cc:414-435 | The fallback HMI code is WARNINGS when the UI answered SUCCESS and TTS did not (including a TTS never asked). Otherwise it is the TTS code when the UI never answered, and else the UI code. It is INVALID_ENUM only when neither answered. It is SUCCESS exactly when TTS succeeded and the UI succeeded or never answered. |
| Aggregation.PrepareAudioPassThruResultCodeForResponse | src/components/application_manager/src/commands/mobile/perform_audio_pass_thru_request.cc:414-435 | The mobile code is HMIToMobileResult of WARNINGS when the UI answered SUCCESS and TTS did not. It is HMIToMobileResult of the TTS code when the UI never answered, of the UI code when the UI answered anything else, and of SUCCESS when both succeeded. |
| Aggregation.IsAnyHMIComponentAborted | src/components/application_manager/src/commands/mobile/perform_audio_pass_thru_request.cc:453-459 | True exactly when the UI or the TTS result is ABORTED. Its effect on the response is stated by `Aggregation.AbortPrecedence`. |
| Aggregation.PrepareResponseParameters | src/components/application_manager/src/commands/mobile/perform_audio_pass_thru_request.cc:195-229 | tts_info_ only ever becomes the phoneme note. On every rung the info is MergeInfos of ui_info_ with tts_info_ as the ladder left it, with the missing-image note merged in front when the icon is missing. A failed response is ABORTED or has a UI outcome that is not ok. An ABORTED interface gives WARNINGS, UNSUPPORTED_RESOURCE or ABORTED. |
| Aggregation.UnsupportedPhonemeIsWarning | src/components/application_manager/src/commands/mobile/perform_audio_pass_thru_request.cc:206-209 | If the UI is ok and TTS is available but reports an unsupported resource, the result is successful WARNINGS. tts_info_ becomes "Unsupported phoneme type sent in a prompt", and that note is merged into the info. |
| Aggregation.UnsupportedOutranksAbort | src/components/application_manager/src/commands/mobile/perform_audio_pass_thru_request.cc:210-214 | If rung 1 does not apply and IsResultCodeUnsupported holds, the result is successful UNSUPPORTED_RESOURCE, even when an interface aborted. |
| Aggregation.AbortPrecedence | src/components/application_manager/src/commands/mobile/perform_audio_pass_thru_request.cc:212-214 | Past the first two rungs, an ABORTED on either interface gives ABORTED with success false, whatever the other interface answered. |
| Aggregation.FallbackFollowsUi | src/components/application_manager/src/commands/mobile/perform_audio_pass_thru_request.cc:215-221 | Otherwise the code is HMIToMobileResult of `CommonResult`, and success is false exactly when the UI outcome is not ok. |
| Aggregation.MissingIconOnlyAddsNote | src/components/application_manager/src/commands/mobile/perform_audio_pass_thru_request.cc:223-226 | A missing icon only merges "Reference image(s) not found" in front of the info. The code, the success flag and tts_info_ are the same as with the icon found. |
| RequestFields.PerformParamsOf | src/components/application_manager/src/commands/mobile/perform_audio_pass_thru_request.cc:253-300 | mute_audio is forwarded when given and is true when omitted. The app id, max_duration, both display texts and the icon are forwarded as they are. |
| Transitions.InitExtendsTimeout | src/components/application_manager/src/commands/mobile/perform_audio_pass_thru_request.cc:68-72 | The timeout becomes timeout + max_duration modulo 2^32, which is the plain sum when that fits in 32 bits. Nothing else changes. |
| Transitions.ValidationIsTerminal | src/components/application_manager/src/commands/mobile/perform_audio_pass_thru_request.cc:77-98 | A request that fails a check gets exactly one failed response and no HMI traffic, and the fields do not change. The code is APPLICATION_NOT_REGISTERED for no application, else REJECTED for HMI level NONE, else INVALID_DATA. |
| Transitions.DispatchOrder | src/components/application_manager/src/commands/mobile/perform_audio_pass_thru_request.cc:102-113 | After validation passes, the UI is awaited and no response is sent yet. The result slots, info strings and timeout are unchanged, and the message and icon flag are those the icon check gives, before anything is sent. With a non-empty prompt, Speak (now awaited) goes before PerformAudioPassThru. Otherwise the order is PerformAudioPassThru, OnRecordStart, then capture, and the TTS flag is untouched. |
| Transitions.IconHandling | src/components/application_manager/src/commands/mobile/perform_audio_pass_thru_request.cc:390-412 | audio_pass_thru_icon_exists_ is reset to true. With no icon nothing else changes. An icon that fails CheckSyntax is removed from the message and not reported missing. A valid icon stays in the message and is marked missing exactly when VerifyImage does not answer SUCCESS. No other field or message part changes. |
| Transitions.EventClearsOnlyItsFlag | src/components/application_manager/src/commands/mobile/perform_audio_pass_thru_request.cc:122-180 | A UI event clears only the UI flag, and a TTS_Speak event only the TTS flag. No other event changes a flag. |
| Transitions.RespondsExactlyWhenIdle | src/components/application_manager/src/commands/mobile/perform_audio_pass_thru_request.cc:176-192 | on_event sends a response exactly when the UI rejected, or when a known event leaves neither flag set. An unknown event does nothing. |
| Transitions.ResponseCarriesPreparedParameters | src/components/application_manager/src/commands/mobile/perform_audio_pass_thru_request.cc:181-192 | When a known event other than a UI REJECTED leaves nothing awaited, the last effect is the response built by `PrepareResponseParameters`. It uses the stored results, ui_info_, tts_info_ as the event left it, and the icon flag, and sends no info when the info is empty. tts_info_ becomes the value the ladder gave it. |
| Transitions.UiRejectedRespondsAtOnce | src/components/application_manager/src/commands/mobile/perform_audio_pass_thru_request.cc:132-139 | A UI REJECTED yields exactly one failed response with the mapped code. This happens even while TTS is awaited, and neither speech nor capture is stopped. |
| Transitions.SpeechOutcomeStartsRecording | src/components/application_manager/src/commands/mobile/perform_audio_pass_thru_request.cc:149-166 | A TTS_Speak code in {SUCCESS, WARNINGS, WRONG_LANGUAGE, RETRY, SAVED, UNSUPPORTED_RESOURCE} emits OnRecordStart, capture start and one timeout update, in that order, followed by at most a response and nothing else. Any other code emits at most a response. |
| Transitions.ResetTimeoutOnlyRearms | src/components/application_manager/src/commands/mobile/perform_audio_pass_thru_request.cc:169-175 | While a response is awaited, TTS_OnResetTimeout only re-arms the request timeout with default_timeout_ and changes no field. |
| Transitions.FinishStopsSpeechOnlyWhileAwaited | src/components/application_manager/src/commands/mobile/perform_audio_pass_thru_request.cc:372-383 | No field changes. TTS.StopSpeaking is sent exactly when the Speak response is awaited. StopAudioPassThru is sent exactly when EndAudioPassThrough reports a capture. |
| Transitions.TimeOutFinishesFirst | src/components/application_manager/src/commands/mobile/perform_audio_pass_thru_request.cc:61-66 | On timeout, FinishTTSSpeak's effects come before the base timeout handling. No field changes, and this command sends no response of its own. |
| Transitions.AnswersAgainAfterCompletion | src/components/application_manager/src/commands/mobile/perform_audio_pass_thru_request.cc:169-192 | Once nothing is awaited, a later TTS_OnResetTimeout builds another response. The single response therefore depends on the base request being finished once it has answered. |
| Transitions.IsWaitingHMIResponse | src/components/application_manager/src/commands/mobile/perform_audio_pass_thru_request.cc:385-388 | True exactly when either awaiting flag is set. Its effect is stated by `Transitions.RespondsExactlyWhenIdle`. |
| Transitions.PromptlessSuccessReportsWarnings | src/components/application_manager/src/commands/mobile/perform_audio_pass_thru_request.cc:424-426 | A request without a prompt whose capture the UI answers SUCCESS gets a response with code HMIToMobileResult(WARNINGS), whenever the collaborators let it reach the fallback rung. TTS was never asked, so its result is still INVALID_ENUM. |
| Transitions.RejectedThenSpeechAnswersTwice | src/components/application_manager/src/commands/mobile/perform_audio_pass_thru_request.cc:122-192 | A UI REJECTED that arrives while Speak is awaited is answered at once. When the Speak answer then arrives, on_event answers a second time. |
| Transitions.CaptureStartsAfterUiAnswer | src/components/application_manager/src/commands/mobile/perform_audio_pass_thru_request.cc:123-192 | While both answers are awaited, a UI answer with any code, then a TTS_Speak code that starts recording, makes the second event emit exactly OnRecordStart, the capture start, a timeout update and a response. No StopAudioPassThru is among them. |
| Transitions.FlagsNeverRaised | src/components/application_manager/src/commands/mobile/perform_audio_pass_thru_request.cc:116-193 | Over any sequence of events, an awaiting flag that is clear stays clear. |
| Transitions.EventSendsNoRequest | src/components/application_manager/src/commands/mobile/perform_audio_pass_thru_request.cc:116-193 | on_event never sends a Speak or PerformAudioPassThru request. |
| Transitions.NoRequestAfterDispatch | src/components/application_manager/src/commands/mobile/perform_audio_pass_thru_request.cc:116-193 | Over any sequence of events, no new Speak or PerformAudioPassThru request is sent. |
| Transitions.AnsweredCommandResponds | src/components/application_manager/src/commands/mobile/perform_audio_pass_thru_request.cc:122-193 | While something is awaited, a sequence of events that holds every awaited answer (UI, and TTS_Speak if awaited) produces a response. |
| Transitions.AdmittedRequestIsAnswered | src/components/application_manager/src/commands/mobile/perform_audio_pass_thru_request.cc:74-193 | A request that passes validation and then receives its UI answer (and its Speak answer, when it had a prompt) gets a response, and no second round of HMI requests is sent. |
| Transitions.SuccessfulPromptedCapture | src/components/application_manager/src/commands/mobile/perform_audio_pass_thru_request.cc:103-193 | With a prompt: Speak then PerformAudioPassThru are sent. Speech SUCCESS starts the capture and re-arms the timeout. Capture SUCCESS, with EndAudioPassThrough reporting an active capture, stops the capture and gives one successful SUCCESS response with no info. Assumed of the collaborators: SUCCESS maps to SUCCESS and is plain success on both interfaces, GetInfo of no info keeps the empty string, and MergeInfos of two empty infos is empty. |

## Left out

- The SmartObject wire format. Only the fields set and their order are modelled. The display texts are kept per slot, so the array position of display text 2 when text 1 is absent is not modelled.
- The `msg_params` of the HMI event that responses pass along. A `Response` effect carries only success, code and info.
- The collaborators defined outside this file: `MessageHelper::HMIToMobileResult`, `PrepareResultForMobileResponse` and the derived fields of `ResponseInfo`, `IsResultCodeUnsupported`, both forms of `MergeInfos`, `CheckSyntax`, and `MessageHelper::VerifyImage`. They are uninterpreted functions in `Collaborators`.
- The base request class (CommandRequestImpl) is not part of this model. This covers `SendResponse`, the event subscriptions made by the constructor and by `SendHMIRequest`, and the base `onTimeOut`. It also covers the request controller that finishes a request once it has answered. `GetInfo` is a collaborator.
- Transitions.AnswersAgainAfterCompletion and Transitions.RejectedThenSpeechAnswersTwice: the model promises only that an answered request responds at least once. On its own, on_event answers again after completion (a later TTS_OnResetTimeout, or the Speak answer after a UI REJECTED). That a mobile application sees exactly one response rests on the request controller finishing the request after its first answer, and that controller is not part of this model.
- The application manager's audio-pass-thru state. What `EndAudioPassThrough` returns is a parameter of FinishTTSSpeak, OnEvent and OnTimeOut. Nothing ties that answer to the capture this request started. The capture thread started by `StartAudioPassThruThread` is one effect.
- Logging.
- Raw result-code integers outside the enumerations. The code casts `asUInt()` values to the enumeration type.
- `std::strlen` stops at an embedded NUL. The model tests the whole text for emptiness.
- `asInt()` of a `max_duration` at or above 2^31 for the capture thread.
- The field `default_timeout_` is taken to be 32 bits wide, so `Init` wraps modulo 2^32.
- The message queue, HMI transport, event engine and vehicle-data subscription registry of the wider platform. The files for them that are available hold only declarations, so their behaviour would have to be invented. This covers hmi_message_handler_impl.h, can_connection.h and subscribe_vehicle_data_request.h.

=== FILE: aggregation.dfy ===
/**
 * How the UI and TTS outcomes of one PerformAudioPassThru are folded into the
 * success flag, result code and info string of the single mobile response.
 */
module Aggregation {
  import opened ResultCodes
  import opened Messages

  const UNSUPPORTED_PHONEME_NOTE: string := "Unsupported phoneme type sent in a prompt"
  const MISSING_IMAGE_NOTE: string := "Reference image(s) not found"

  /** True when the UI or the TTS interface answered ABORTED. */
  predicate IsAnyHMIComponentAborted(ui: ResponseInfo, tts: ResponseInfo)
  {
    ui.resultCode == Aborted || tts.resultCode == Aborted
  }

  /** The first rung of the ladder: UI fine, TTS available but the prompt unsupported. */
  predicate TtsUnsupportedWarning(ui: ResponseInfo, tts: ResponseInfo)
  {
    ui.isOk && tts.isUnsupportedResource && tts.interfaceState == StateAvailable
  }

  /**
   * The HMI code the fallback rung reports: WARNINGS when the capture succeeded
   * but the prompt did not, the TTS code when the UI never answered, else the
   * UI code.
   */
  function CommonResult(uiCode: HmiResult, ttsCode: HmiResult): (r: HmiResult)
    ensures r == Warnings || r == uiCode || r == ttsCode
    ensures uiCode == Success && ttsCode != Success ==> r == Warnings
    ensures uiCode == InvalidEnum ==> r == ttsCode
    ensures uiCode != InvalidEnum && uiCode != Success ==> r == uiCode
    ensures r == InvalidEnum <==> uiCode == InvalidEnum && ttsCode == InvalidEnum
    ensures r == Success <==> ttsCode == Success && (uiCode == Success || uiCode == InvalidEnum)
  {
    if uiCode == Success && ttsCode != Success then Warnings
    else if uiCode == InvalidEnum then ttsCode
    else uiCode
  }

  /** The fallback mobile code, mapped from CommonResult by HMIToMobileResult. */
  function PrepareAudioPassThruResultCodeForResponse(ui: ResponseInfo, tts: ResponseInfo,
                                                     env: Collaborators): (r: MobileResult)
    ensures ui.resultCode == Success && tts.resultCode != Success ==>
              r == env.hmiToMobileResult(Warnings)
    ensures ui.resultCode == InvalidEnum ==> r == env.hmiToMobileResult(tts.resultCode)
    ensures ui.resultCode != Success && ui.resultCode != InvalidEnum ==>
              r == env.hmiToMobileResult(ui.resultCode)
    ensures ui.resultCode == Success && tts.resultCode == Success ==>
              r == env.hmiToMobileResult(Success)
  {
    env.hmiToMobileResult(CommonResult(ui.resultCode, tts.resultCode))
  }

  /** What PrepareResponseParameters hands back, with the new value of tts_info_. */
  datatype Prepared = Prepared(success: bool, code: MobileResult, info: string, ttsInfo: string)

  /**
   * The response parameters for the stored UI and TTS results and info strings.
   * The ladder is tested in this order: TtsUnsupportedWarning, then
   * IsResultCodeUnsupported, then IsAnyHMIComponentAborted, then the fallback.
   */
  function PrepareResponseParameters(resultUi: HmiResult, resultTts: HmiResult,
                                     uiInfo: string, ttsInfo: string,
                                     iconExists: bool, env: Collaborators): (p: Prepared)
    // tts_info_ is only ever replaced by the phoneme note
    ensures p.ttsInfo == ttsInfo || p.ttsInfo == UNSUPPORTED_PHONEME_NOTE
    // a failed response is an abort or a UI interface that did not succeed
    ensures !p.success ==> p.code == MobileAborted || !env.isOk(resultUi, UiInterface)
    // an aborted interface yields ABORTED unless one of the two earlier rungs fired
    ensures resultUi == Aborted || resultTts == Aborted ==>
              p.code in {MobileWarnings, MobileUnsupportedResource, MobileAborted}
    // on every rung the info merges ui_info_ with tts_info_ as the ladder left it
    ensures var m := env.mergeInfos(MakeResponseInfo(resultUi, UiInterface, env), uiInfo,
                                    MakeResponseInfo(resultTts, TtsInterface, env), p.ttsInfo);
            p.info == if iconExists then m else env.mergeNote(MISSING_IMAGE_NOTE, m)
  {
    var ui := MakeResponseInfo(resultUi, UiInterface, env);
    var tts := MakeResponseInfo(resultTts, TtsInterface, env);
    var outcome :=
      if TtsUnsupportedWarning(ui, tts) then
        (true, MobileWarnings, UNSUPPORTED_PHONEME_NOTE)
      else if env.isResultCodeUnsupported(ui, tts) then
        (true, MobileUnsupportedResource, ttsInfo)
      else if IsAnyHMIComponentAborted(ui, tts) then
        (false, MobileAborted, ttsInfo)
      else
        (ui.isOk, PrepareAudioPassThruResultCodeForResponse(ui, tts, env), ttsInfo);
    var merged := env.mergeInfos(ui, uiInfo, tts, outcome.2);
    var info := if iconExists then merged else env.mergeNote(MISSING_IMAGE_NOTE, merged);
    Prepared(outcome.0, outcome.1, info, outcome.2)
  }

  /** Rung 1: UI ok and TTS reporting an unsupported prompt on an available TTS. */
  lemma UnsupportedPhonemeIsWarning(resultUi: HmiResult, resultTts: HmiResult, uiInfo: string,
                                    ttsInfo: string, iconExists: bool, env: Collaborators)
    requires TtsUnsupportedWarning(MakeResponseInfo(resultUi, UiInterface, env),
                                   MakeResponseInfo(resultTts, TtsInterface, env))
    ensures var p := PrepareResponseParameters(resultUi, resultTts, uiInfo, ttsInfo, iconExists, env);
            p.success && p.code == MobileWarnings && p.ttsInfo == UNSUPPORTED_PHONEME_NOTE &&
            var merged := env.mergeInfos(MakeResponseInfo(resultUi, UiInterface, env), uiInfo,
                                         MakeResponseInfo(resultTts, TtsInterface, env),
                                         UNSUPPORTED_PHONEME_NOTE);
            p.info == if iconExists then merged else env.mergeNote(MISSING_IMAGE_NOTE, merged)
  {
  }

  /** Rung 2: IsResultCodeUnsupported wins over an abort on either interface. */
  lemma UnsupportedOutranksAbort(resultUi: HmiResult, resultTts: HmiResult, uiInfo: string,
                                 ttsInfo: string, iconExists: bool, env: Collaborators)
    requires !TtsUnsupportedWarning(MakeResponseInfo(resultUi, UiInterface, env),
                                    MakeResponseInfo(resultTts, TtsInterface, env))
    requires env.isResultCodeUnsupported(MakeResponseInfo(resultUi, UiInterface, env),
                                         MakeResponseInfo(resultTts, TtsInterface, env))
    ensures var p := PrepareResponseParameters(resultUi, resultTts, uiInfo, ttsInfo, iconExists, env);
            p.success && p.code == MobileUnsupportedResource && p.ttsInfo == ttsInfo
  {
  }

  /**
   * Rung 3: once the first two rungs are passed, an abort on either interface
   * gives ABORTED and a failed response, whatever the other interface said.
   */
  lemma AbortPrecedence(resultUi: HmiResult, resultTts: HmiResult, uiInfo: string,
                        ttsInfo: string, iconExists: bool, env: Collaborators)
    requires resultUi == Aborted || resultTts == Aborted
    requires !TtsUnsupportedWarning(MakeResponseInfo(resultUi, UiInterface, env),
                                    MakeResponseInfo(resultTts, TtsInterface, env))
    requires !env.isResultCodeUnsupported(MakeResponseInfo(resultUi, UiInterface, env),
                                          MakeResponseInfo(resultTts, TtsInterface, env))
    ensures var p := PrepareResponseParameters(resultUi, resultTts, uiInfo, ttsInfo, iconExists, env);
            !p.success && p.code == MobileAborted && p.ttsInfo == ttsInfo
  {
  }

  /** Rung 4: the fallback code, failed exactly when the UI outcome is not ok. */
  lemma FallbackFollowsUi(resultUi: HmiResult, resultTts: HmiResult, uiInfo: string,
                          ttsInfo: string, iconExists: bool, env: Collaborators)
    requires resultUi != Aborted && resultTts != Aborted
    requires !TtsUnsupportedWarning(MakeResponseInfo(resultUi, UiInterface, env),
                                    MakeResponseInfo(resultTts, TtsInterface, env))
    requires !env.isResultCodeUnsupported(MakeResponseInfo(resultUi, UiInterface, env),
                                          MakeResponseInfo(resultTts, TtsInterface, env))
    ensures var p := PrepareResponseParameters(resultUi, resultTts, uiInfo, ttsInfo, iconExists, env);
            p.success == env.isOk(resultUi, UiInterface) &&
            p.code == env.hmiToMobileResult(CommonResult(resultUi, resultTts)) &&
            p.ttsInfo == ttsInfo
  {
  }

  /**
   * A missing icon only puts the image note in front of the info string; the
   * result code, the success flag and tts_info_ are the same either way.
   */
  lemma MissingIconOnlyAddsNote(resultUi: HmiResult, resultTts: HmiResult, uiInfo: string,
                                ttsInfo: string, env: Collaborators)
    ensures var found := PrepareResponseParameters(resultUi, resultTts, uiInfo, ttsInfo, true, env);
            var missing := PrepareResponseParameters(resultUi, resultTts, uiInfo, ttsInfo, false, env);
            missing == found.(info := env.mergeNote(MISSING_IMAGE_NOTE, found.info))
  {
  }
}

=== FILE: command.dfy ===
/**
 * The PerformAudioPassThru request object: its member fields are updated in
 * place by Init, Run, on_event and onTimeOut, and everything it sends is
 * appended to the ghost trace Sent. Each entry point is proved to do what the
 * matching step function of Transitions says.
 */
module AudioPassThruCommand {
  import opened ResultCodes
  import opened Messages
  import opened Aggregation
  import opened RequestFields
  import T = Transitions

  class PerformAudioPassThruRequest {
    const connectionKey: nat
    const correlationId: nat
    const env: Collaborators

    var awaitingTtsSpeakResponse: bool
    var awaitingUiResponse: bool
    var audioPassThruIconExists: bool
    var resultTtsSpeak: HmiResult
    var resultUi: HmiResult
    var uiInfo: string
    var ttsInfo: string
    var defaultTimeout: uint32
    /** The mobile request; Run may drop an invalid icon from it. */
    var message: Request

    /**
     * Every HMI message and notification, and the application-manager calls
     * that start, stop or re-arm the capture, in order. EndAudioPassThrough is
     * not in the trace; what it returns is a parameter.
     */
    ghost var Sent: seq<Effect>

    /** The member fields as a value. */
    function Fields(): T.Command
      reads this
    {
      T.Command(awaitingTtsSpeakResponse, awaitingUiResponse, audioPassThruIconExists,
                resultTtsSpeak, resultUi, uiInfo, ttsInfo, defaultTimeout, message)
    }

    function Ctx(): T.Context
    {
      T.Context(connectionKey, correlationId, env)
    }

    constructor (key: nat, correlation: nat, request: Request, timeout: uint32, collaborators: Collaborators)
      ensures connectionKey == key && correlationId == correlation && env == collaborators
      ensures Fields() == T.Created(request, timeout) && Sent == []
    {
      connectionKey, correlationId, env := key, correlation, collaborators;
      awaitingTtsSpeakResponse, awaitingUiResponse := false, false;
      audioPassThruIconExists := true;
      resultTtsSpeak, resultUi := InvalidEnum, InvalidEnum;
      uiInfo, ttsInfo := "", "";
      defaultTimeout := timeout;
      message := request;
      Sent := [];
    }

    method Init() returns (ok: bool)
      modifies this`defaultTimeout
      ensures ok && Fields() == T.Init(old(Fields()))
    {
      defaultTimeout := (defaultTimeout + message.maxDuration) % UINT32_LIMIT;
      ok := true;
    }

    /** True while the Speak or the UI answer is still awaited. */
    predicate IsWaitingHMIResponse()
      reads this
      ensures IsWaitingHMIResponse() <==> awaitingTtsSpeakResponse || awaitingUiResponse
    {
      T.IsWaitingHMIResponse(Fields())
    }

    /** The base request's SendResponse. */
    method SendResponse(success: bool, code: MobileResult, info: Option<string>)
      modifies this`Sent
      ensures Sent == old(Sent) + [Response(success, code, info)]
    {
      Sent := Sent + [Response(success, code, info)];
    }

    /** updateRequestTimeout on the application manager, with the current default timeout. */
    method UpdateRequestTimeout()
      modifies this`Sent
      ensures Sent == old(Sent) + [UpdateTimeout(connectionKey, correlationId, defaultTimeout)]
    {
      Sent := Sent + [UpdateTimeout(connectionKey, correlationId, defaultTimeout)];
    }

    method Run(app: Option<App>)
      modifies this
      ensures var s := T.Run(old(Fields()), app, Ctx());
              Fields() == s.cmd && Sent == old(Sent) + s.effects
    {
      if app.None? {
        SendResponse(false, MobileApplicationNotRegistered, None);
        return;
      }
      if app.value.hmiLevel == HmiNone {
        SendResponse(false, MobileRejected, None);
        return;
      }
      var invalid := IsWhiteSpaceExist();
      if invalid {
        SendResponse(false, MobileInvalidData, None);
        return;
      }
      ProcessAudioPassThruIcon(app.value);
      awaitingUiResponse := true;
      if message.initialPrompt.Some? && 0 < |message.initialPrompt.value| {
        SendSpeakRequest();
        SendPerformAudioPassThruRequest();
      } else {
        SendPerformAudioPassThruRequest();
        SendRecordStartNotification();
        StartMicrophoneRecording();
      }
    }

    method OnEvent(e: Event, audioPassThruEnded: bool)
      modifies this
      ensures var s := T.OnEvent(old(Fields()), e, audioPassThruEnded, Ctx());
              Fields() == s.cmd && Sent == old(Sent) + s.effects
    {
      match e.id {
        case UiPerformAudioPassThru =>
          OnPerformAudioPassThruResponse(e, audioPassThruEnded);
        case TtsSpeak =>
          OnSpeakResponse(e);
        case TtsOnResetTimeout =>
          ghost var sentBefore := Sent;
          UpdateRequestTimeout();
          RespondWhenComplete([UpdateTimeout(connectionKey, correlationId, defaultTimeout)], sentBefore);
        case OtherFunction(_) =>
          return;
      }
    }

    /** The UI.PerformAudioPassThru case of on_event. */
    method OnPerformAudioPassThruResponse(e: Event, audioPassThruEnded: bool)
      modifies this
      ensures var s := T.OnPerformAudioPassThruResponse(old(Fields()), e, audioPassThruEnded, Ctx());
              Fields() == s.cmd && Sent == old(Sent) + s.effects
    {
      awaitingUiResponse := false;
      resultUi := e.code;
      uiInfo := env.getInfo(e.info, uiInfo);
      if resultUi == Rejected {
        SendResponse(false, env.hmiToMobileResult(resultUi), None);
        return;
      }
      ghost var sentBefore := Sent;
      FinishTTSSpeak(audioPassThruEnded);
      RespondWhenComplete(T.FinishTTSSpeak(Fields(), audioPassThruEnded, Ctx()).effects, sentBefore);
    }

    /** The TTS.Speak case of on_event. */
    method OnSpeakResponse(e: Event)
      modifies this
      ensures var s := T.OnSpeakResponse(old(Fields()), e, Ctx());
              Fields() == s.cmd && Sent == old(Sent) + s.effects
    {
      resultTtsSpeak := e.code;
      ttsInfo := env.getInfo(e.info, ttsInfo);
      awaitingTtsSpeakResponse := false;
      ghost var sentBefore := Sent;
      ghost var emitted: seq<Effect> := [];
      if StartsRecording(resultTtsSpeak) {
        SendRecordStartNotification();
        StartMicrophoneRecording();
        UpdateRequestTimeout();
        emitted := [RecordStart(connectionKey), T.StartMicrophoneOf(message, Ctx()),
                    UpdateTimeout(connectionKey, correlationId, defaultTimeout)];
      }
      RespondWhenComplete(emitted, sentBefore);
    }

    /** The end of on_event: once nothing is awaited, build and send the response. */
    method RespondWhenComplete(ghost emitted: seq<Effect>, ghost sentBefore: seq<Effect>)
      requires Sent == sentBefore + emitted
      modifies this`ttsInfo, this`Sent
      ensures var s := T.Respond(old(Fields()), emitted, Ctx());
              Fields() == s.cmd && Sent == sentBefore + s.effects
    {
      if IsWaitingHMIResponse() {
        return;
      }
      var success, code, info := PrepareResponseParameters();
      SendResponse(success, code, if info == "" then None else Some(info));
    }

    method OnTimeOut(audioPassThruEnded: bool)
      modifies this`Sent
      ensures Sent == old(Sent) + T.OnTimeOut(Fields(), audioPassThruEnded, Ctx()).effects
    {
      FinishTTSSpeak(audioPassThruEnded);
      Sent := Sent + [BaseTimeOut];
    }

    /**
     * Stops a running capture (when EndAudioPassThrough reports one) and
     * stops speech while its response is awaited.
     */
    method FinishTTSSpeak(audioPassThruEnded: bool)
      modifies this`Sent
      ensures Sent == old(Sent) + T.FinishTTSSpeak(Fields(), audioPassThruEnded, Ctx()).effects
    {
      if audioPassThruEnded {
        Sent := Sent + [StopAudioPassThru(connectionKey)];
      }
      if !awaitingTtsSpeakResponse {
        return;
      }
      Sent := Sent + [StopSpeaking];
    }

    /** The response parameters; tts_info_ may be replaced by the phoneme note. */
    method PrepareResponseParameters() returns (success: bool, code: MobileResult, info: string)
      modifies this`ttsInfo
      ensures var p := Aggregation.PrepareResponseParameters(resultUi, resultTtsSpeak, uiInfo,
                         old(ttsInfo), audioPassThruIconExists, env);
              success == p.success && code == p.code && info == p.info && ttsInfo == p.ttsInfo
    {
      success := true;
      var ui := MakeResponseInfo(resultUi, UiInterface, env);
      var tts := MakeResponseInfo(resultTtsSpeak, TtsInterface, env);
      if TtsUnsupportedWarning(ui, tts) {
        code := MobileWarnings;
        ttsInfo := UNSUPPORTED_PHONEME_NOTE;
      } else if env.isResultCodeUnsupported(ui, tts) {
        code := MobileUnsupportedResource;
      } else if IsAnyHMIComponentAborted(ui, tts) {
        code := MobileAborted;
        success := false;
      } else {
        code := PrepareAudioPassThruResultCodeForResponse(ui, tts, env);
        if !ui.isOk {
          success := false;
        }
      }
      info := env.mergeInfos(ui, uiInfo, tts, ttsInfo);
      if !audioPassThruIconExists {
        info := env.mergeNote(MISSING_IMAGE_NOTE, info);
      }
    }

    /** TTS.Speak with the chunks of initial_prompt, copied one by one. */
    method SendSpeakRequest()
      modifies this`awaitingTtsSpeakResponse, this`Sent
      ensures awaitingTtsSpeakResponse
      ensures Sent == old(Sent) + [SpeakRequest(connectionKey, PromptOf(message))]
    {
      var prompt := PromptOf(message);
      var chunks: seq<TtsChunk> := [];
      for i := 0 to |prompt|
        invariant chunks == prompt[..i]
      {
        chunks := chunks + [TtsChunk(prompt[i].text, prompt[i].chunkType)];
      }
      assert chunks == prompt;
      awaitingTtsSpeakResponse := true;
      Sent := Sent + [SpeakRequest(connectionKey, chunks)];
    }

    /** UI.PerformAudioPassThru with the fields present in the request. */
    method SendPerformAudioPassThruRequest()
      modifies this`Sent
      ensures Sent == old(Sent) + [PerformRequest(PerformParamsOf(message, connectionKey))]
    {
      var text1: Option<string> := None;
      if message.displayText1.Some? {
        text1 := Some(message.displayText1.value);
      }
      var text2: Option<string> := None;
      if message.displayText2.Some? {
        text2 := Some(message.displayText2.value);
      }
      var mute: bool;
      if message.muteAudio.Some? {
        mute := message.muteAudio.value;
      } else {
        mute := true;
      }
      var icon: Option<Image> := None;
      if message.icon.Some? {
        icon := Some(message.icon.value);
      }
      Sent := Sent + [PerformRequest(PerformParams(connectionKey, message.maxDuration,
                                                   text1, text2, mute, icon))];
    }

    method SendRecordStartNotification()
      modifies this`Sent
      ensures Sent == old(Sent) + [RecordStart(connectionKey)]
    {
      Sent := Sent + [RecordStart(connectionKey)];
    }

    method StartMicrophoneRecording()
      modifies this`Sent
      ensures Sent == old(Sent) + [T.StartMicrophoneOf(message, Ctx())]
    {
      Sent := Sent + [StartMicrophone(connectionKey, correlationId, message.maxDuration,
                                      message.samplingRate, message.bitsPerSample,
                                      message.audioType)];
    }

    /**
     * True when a non-empty prompt chunk, or a present display text, fails
     * CheckSyntax; the scan stops at the first failing chunk.
     */
    method IsWhiteSpaceExist() returns (invalid: bool)
      ensures invalid == ContainsInvalidText(message, env)
    {
      if message.initialPrompt.Some? {
        var prompt := message.initialPrompt.value;
        var i := 0;
        while i < |prompt|
          invariant 0 <= i <= |prompt|
          invariant forall j :: 0 <= j < i ==> !InvalidPromptText(prompt[j].text, env)
        {
          var text := prompt[i].text;
          if |text| != 0 && !env.checkSyntax(text, CHECK_SYNTAX_DEFAULT_ALLOW_EMPTY) {
            return true;
          }
          i := i + 1;
        }
      }
      if message.displayText1.Some? &&
         !env.checkSyntax(message.displayText1.value, CHECK_SYNTAX_DEFAULT_ALLOW_EMPTY) {
        return true;
      }
      if message.displayText2.Some? &&
         !env.checkSyntax(message.displayText2.value, CHECK_SYNTAX_DEFAULT_ALLOW_EMPTY) {
        return true;
      }
      return false;
    }

    /**
     * CheckSyntax of the icon name, empty names refused: the icon check keeps
     * the icon in the message exactly when this holds, for any application.
     */
    predicate IsAudioPassThruIconParamValid()
      reads this
      requires message.icon.Some?
      ensures forall app :: IsAudioPassThruIconParamValid() <==>
                T.ProcessAudioPassThruIcon(Fields(), app, env).message.icon.Some?
    {
      env.checkSyntax(message.icon.value.value, false)
    }

    method ProcessAudioPassThruIcon(app: App)
      modifies this`audioPassThruIconExists, this`message
      ensures Fields() == T.ProcessAudioPassThruIcon(old(Fields()), app, env)
    {
      audioPassThruIconExists := true;
      if message.icon.Some? {
        if IsAudioPassThruIconParamValid() {
          if env.verifyImage(message.icon.value, app) != MobileSuccess {
            audioPassThruIconExists := false;
          }
        } else {
          message := message.(icon := None);
        }
      }
    }
  }
}

=== FILE: messages.dfy ===
/**
 * The PerformAudioPassThru mobile request, the HMI events delivered to the
 * command, the effects the command emits, and the collaborators it calls.
 */
module Messages {
  import opened ResultCodes

  datatype Option<T> = None | Some(value: T)

  const UINT32_LIMIT: int := 0x1_0000_0000
  type uint32 = x: int | 0 <= x < UINT32_LIMIT

  /** One element of initial_prompt: the text to speak and its speech type. */
  datatype TtsChunk = TtsChunk(text: string, chunkType: int)

  /** The optional audio_pass_thru_icon: the image name and its image type. */
  datatype Image = Image(value: string, imageType: int)

  /** The fields of msg_params this command reads; absent keys are None. */
  datatype Request = Request(
    initialPrompt: Option<seq<TtsChunk>>,
    displayText1: Option<string>,
    displayText2: Option<string>,
    muteAudio: Option<bool>,
    icon: Option<Image>,
    maxDuration: uint32,
    samplingRate: int,
    bitsPerSample: int,
    audioType: int)

  datatype HmiLevel = HmiFull | HmiLimited | HmiBackground | HmiNone

  /** The registered application the connection key resolves to. */
  datatype App = App(hmiLevel: HmiLevel)

  /** The function id an event is raised for. */
  datatype EventId =
    | UiPerformAudioPassThru
    | TtsSpeak
    | TtsOnResetTimeout
    | OtherFunction(functionId: int)

  /** An HMI response or notification: its id, params.code and msg_params.info. */
  datatype Event = Event(id: EventId, code: HmiResult, info: Option<string>)

  /**
   * msg_params of UI.PerformAudioPassThru. The display texts go to the slots
   * with field names audioPassThruDisplayText1 and audioPassThruDisplayText2.
   */
  datatype PerformParams = PerformParams(
    appId: nat,
    maxDuration: uint32,
    displayText1: Option<string>,
    displayText2: Option<string>,
    muteAudio: bool,
    icon: Option<Image>)

  /** What the command does to the world, in the order it does it. */
  datatype Effect =
      /** TTS.Speak with tts_chunks and speak_type AUDIO_PASS_THRU */
    | SpeakRequest(appId: nat, ttsChunks: seq<TtsChunk>)
      /** UI.PerformAudioPassThru */
    | PerformRequest(params: PerformParams)
      /** the UI.OnRecordStart notification */
    | RecordStart(appId: nat)
      /** BeginAudioPassThrough and the start of the capture thread */
    | StartMicrophone(appId: nat, correlationId: nat, maxDuration: int,
                      samplingRate: int, bitsPerSample: int, audioType: int)
      /** TTS.StopSpeaking */
    | StopSpeaking
      /** StopAudioPassThru on the application manager */
    | StopAudioPassThru(appId: nat)
      /** updateRequestTimeout on the application manager */
    | UpdateTimeout(appId: nat, correlationId: nat, timeout: uint32)
      /** the one response to the mobile application */
    | Response(success: bool, code: MobileResult, info: Option<string>)
      /** the base request's own timeout handling */
    | BaseTimeOut

  /**
   * Functions defined outside this command, left uninterpreted: every result
   * holds for every choice of them that meets the lemma's requires.
   */
  datatype Collaborators = Collaborators(
    /** MessageHelper::HMIToMobileResult */
    hmiToMobileResult: HmiResult -> MobileResult,
    /** ResponseInfo::is_ok as set up by ResponseInfo and PrepareResultForMobileResponse */
    isOk: (HmiResult, HmiInterface) -> bool,
    /** ResponseInfo::is_unsupported_resource */
    isUnsupportedResource: (HmiResult, HmiInterface) -> bool,
    /** ResponseInfo::interface_state */
    interfaceState: HmiInterface -> InterfaceState,
    /** IsResultCodeUnsupported */
    isResultCodeUnsupported: (ResponseInfo, ResponseInfo) -> bool,
    /** MergeInfos over two interfaces' outcomes and info strings */
    mergeInfos: (ResponseInfo, string, ResponseInfo, string) -> string,
    /** MergeInfos over two plain strings */
    mergeNote: (string, string) -> string,
    /** CheckSyntax(str, allow_empty_line) */
    checkSyntax: (string, bool) -> bool,
    /** MessageHelper::VerifyImage */
    verifyImage: (Image, App) -> MobileResult,
    /**
     * CommandRequestImpl::GetInfo: the new value of an info field, from the
     * event's msg_params.info (when present) and the value stored before
     */
    getInfo: (Option<string>, string) -> string)

  /** The default of CheckSyntax's allow_empty_line argument. */
  const CHECK_SYNTAX_DEFAULT_ALLOW_EMPTY: bool := false

  /** A ResponseInfo for `code` from `iface`, its derived fields from the collaborators. */
  function MakeResponseInfo(code: HmiResult, iface: HmiInterface, env: Collaborators): ResponseInfo
  {
    ResponseInfo(code, iface, env.isOk(code, iface), env.isUnsupportedResource(code, iface),
                 env.interfaceState(iface))
  }
}

=== FILE: request_fields.dfy ===
/**
 * What the command reads out of the mobile request: the text checks of Run,
 * the initial prompt, and the parameters of the HMI messages it builds.
 */
module RequestFields {
  import opened ResultCodes
  import opened Messages

  /** A prompt chunk fails when its text is non-empty and CheckSyntax rejects it. */
  predicate InvalidPromptText(text: string, env: Collaborators)
  {
    |text| != 0 && !env.checkSyntax(text, CHECK_SYNTAX_DEFAULT_ALLOW_EMPTY)
  }

  /** A display text fails when it is present and CheckSyntax rejects it, even when empty. */
  predicate InvalidDisplayText(text: Option<string>, env: Collaborators)
  {
    text.Some? && !env.checkSyntax(text.value, CHECK_SYNTAX_DEFAULT_ALLOW_EMPTY)
  }

  /**
   * The condition IsWhiteSpaceExist reports: some prompt chunk, or one of the
   * two display texts, fails the syntax check.
   */
  predicate ContainsInvalidText(req: Request, env: Collaborators)
  {
    (req.initialPrompt.Some? &&
     exists i :: 0 <= i < |req.initialPrompt.value| &&
                 InvalidPromptText(req.initialPrompt.value[i].text, env)) ||
    InvalidDisplayText(req.displayText1, env) ||
    InvalidDisplayText(req.displayText2, env)
  }

  /** initial_prompt as a list; an absent key reads as the empty list. */
  function PromptOf(req: Request): seq<TtsChunk>
  {
    if req.initialPrompt.Some? then req.initialPrompt.value else []
  }

  /** Run speaks first only when initial_prompt is present and non-empty. */
  predicate HasInitialPrompt(req: Request)
  {
    req.initialPrompt.Some? && 0 < |req.initialPrompt.value|
  }

  /** The msg_params of UI.PerformAudioPassThru for `req` and application `appId`. */
  function PerformParamsOf(req: Request, appId: nat): (r: PerformParams)
    // mute_audio is forwarded when given, and is true when omitted
    ensures r.muteAudio <==> req.muteAudio != Some(false)
    ensures r.appId == appId && r.maxDuration == req.maxDuration
    ensures r.displayText1 == req.displayText1 && r.displayText2 == req.displayText2
    ensures r.icon == req.icon
  {
    PerformParams(appId, req.maxDuration, req.displayText1, req.displayText2,
                  if req.muteAudio.Some? then req.muteAudio.value else true,
                  req.icon)
  }

  /** The TTS.Speak outcomes after which the capture is started. */
  predicate StartsRecording(code: HmiResult)
  {
    code in {Success, Warnings, WrongLanguage, Retry, Saved, UnsupportedResource}
  }
}

=== FILE: results.dfy ===
/**
 * Result codes exchanged with the HMI and with the mobile application, and the
 * per-interface outcome record (ResponseInfo) that the aggregation reads.
 */
module ResultCodes {

  /** hmi_apis::Common_Result: the code an HMI interface puts in its response. */
  datatype HmiResult =
    | Success
    | UnsupportedRequest
    | UnsupportedResource
    | Disallowed
    | Rejected
    | Aborted
    | Ignored
    | Retry
    | InUse
    | DataNotAvailable
    | TimedOut
    | InvalidData
    | CharLimitExceeded
    | InvalidId
    | DuplicateName
    | ApplicationNotRegistered
    | WrongLanguage
    | OutOfMemory
    | TooManyPendingRequests
    | NoAppsRegistered
    | NoDevicesConnected
    | Warnings
    | GenericError
    | UserDisallowed
    | TruncatedData
    | Saved
    | ReadOnly
    | InvalidEnum  // the "never set" value a result slot starts with

  /** mobile_apis::Result: the code of the one response sent to the application. */
  datatype MobileResult =
    | MobileSuccess
    | MobileUnsupportedRequest
    | MobileUnsupportedResource
    | MobileDisallowed
    | MobileRejected
    | MobileAborted
    | MobileIgnored
    | MobileRetry
    | MobileInUse
    | MobileVehicleDataNotAvailable
    | MobileTimedOut
    | MobileInvalidData
    | MobileCharLimitExceeded
    | MobileInvalidId
    | MobileDuplicateName
    | MobileApplicationNotRegistered
    | MobileWrongLanguage
    | MobileOutOfMemory
    | MobileTooManyPendingRequests
    | MobileTooManyApplications
    | MobileApplicationRegisteredAlready
    | MobileWarnings
    | MobileGenericError
    | MobileUserDisallowed
    | MobileUnsupportedVersion
    | MobileVehicleDataNotAllowed
    | MobileFileNotFound
    | MobileCancelRoute
    | MobileTruncatedData
    | MobileSaved
    | MobileInvalidCert
    | MobileExpiredCert
    | MobileResumeFailed
    | MobileDataNotAvailable
    | MobileReadOnly
    | MobileInvalidEnum

  /** The two HMI interfaces this command consults. */
  datatype HmiInterface = UiInterface | TtsInterface

  /** HmiInterfaces::InterfaceState: what the platform knows of an interface. */
  datatype InterfaceState = StateNotResponse | StateAvailable | StateNotAvailable

  /**
   * One interface's outcome: the raw code plus the fields derived from it and
   * from the interface's availability (computed by collaborators).
   */
  datatype ResponseInfo = ResponseInfo(
    resultCode: HmiResult,
    interface: HmiInterface,
    isOk: bool,
    isUnsupportedResource: bool,
    interfaceState: InterfaceState)
}

=== FILE: transitions.dfy ===
/**
 * The PerformAudioPassThru command as a state machine on values: the member
 * fields of the request object, and one step function per entry point that
 * gives the new fields and the effects emitted, in order. The class in
 * command.dfy is proved to behave as these functions say; the lemmas here
 * state what the request promises.
 */
module Transitions {
  import opened ResultCodes
  import opened Messages
  import opened Aggregation
  import opened RequestFields

  /** The member fields of the command, including the (mutable) request message. */
  datatype Command = Command(
    awaitingTtsSpeakResponse: bool,
    awaitingUiResponse: bool,
    audioPassThruIconExists: bool,
    resultTtsSpeak: HmiResult,
    resultUi: HmiResult,
    uiInfo: string,
    ttsInfo: string,
    defaultTimeout: uint32,
    message: Request)

  /** What stays fixed for the lifetime of one command. */
  datatype Context = Context(connectionKey: nat, correlationId: nat, env: Collaborators)

  /** The fields after a step and the effects emitted by it. */
  datatype Step = Step(cmd: Command, effects: seq<Effect>)

  /** One event delivery, with what EndAudioPassThrough reports if it is asked. */
  datatype Delivery = Delivery(event: Event, audioPassThruEnded: bool)

  /** The fields as the constructor leaves them. */
  function Created(message: Request, defaultTimeout: uint32): Command
  {
    Command(false, false, true, InvalidEnum, InvalidEnum, "", "", defaultTimeout, message)
  }

  /** Init: max_duration is added to the (32-bit) default timeout. */
  function Init(c: Command): Command
  {
    c.(defaultTimeout := (c.defaultTimeout + c.message.maxDuration) % UINT32_LIMIT)
  }

  predicate IsWaitingHMIResponse(c: Command)
  {
    c.awaitingTtsSpeakResponse || c.awaitingUiResponse
  }

  /** The checks Run makes before it contacts the HMI, all passed. */
  predicate Admitted(c: Command, app: Option<App>, env: Collaborators)
  {
    app.Some? && app.value.hmiLevel != HmiNone && !ContainsInvalidText(c.message, env)
  }

  /**
   * The icon check: a syntactically bad icon is dropped from the message, a
   * good one that VerifyImage cannot find clears audio_pass_thru_icon_exists_.
   */
  function ProcessAudioPassThruIcon(c: Command, app: App, env: Collaborators): Command
  {
    var c1 := c.(audioPassThruIconExists := true);
    match c.message.icon
    case None => c1
    case Some(icon) =>
      if !env.checkSyntax(icon.value, false) then c1.(message := c.message.(icon := None))
      else if env.verifyImage(icon, app) != MobileSuccess then c1.(audioPassThruIconExists := false)
      else c1
  }

  function StartMicrophoneOf(message: Request, ctx: Context): Effect
  {
    StartMicrophone(ctx.connectionKey, ctx.correlationId, message.maxDuration,
                    message.samplingRate, message.bitsPerSample, message.audioType)
  }

  /** Run: validation, then the HMI requests. */
  function Run(c: Command, app: Option<App>, ctx: Context): Step
  {
    if app.None? then
      Step(c, [Response(false, MobileApplicationNotRegistered, None)])
    else if app.value.hmiLevel == HmiNone then
      Step(c, [Response(false, MobileRejected, None)])
    else if ContainsInvalidText(c.message, ctx.env) then
      Step(c, [Response(false, MobileInvalidData, None)])
    else
      var c1 := ProcessAudioPassThruIcon(c, app.value, ctx.env).(awaitingUiResponse := true);
      var perform := PerformRequest(PerformParamsOf(c1.message, ctx.connectionKey));
      if HasInitialPrompt(c1.message) then
        Step(c1.(awaitingTtsSpeakResponse := true),
             [SpeakRequest(ctx.connectionKey, PromptOf(c1.message)), perform])
      else
        Step(c1, [perform, RecordStart(ctx.connectionKey), StartMicrophoneOf(c1.message, ctx)])
  }

  /** FinishTTSSpeak: stop the capture if it was running, stop speech if still awaited. */
  function FinishTTSSpeak(c: Command, audioPassThruEnded: bool, ctx: Context): Step
  {
    Step(c, (if audioPassThruEnded then [StopAudioPassThru(ctx.connectionKey)] else []) +
            (if c.awaitingTtsSpeakResponse then [StopSpeaking] else []))
  }

  /** onTimeOut: FinishTTSSpeak, then the base request's timeout. */
  function OnTimeOut(c: Command, audioPassThruEnded: bool, ctx: Context): Step
  {
    var f := FinishTTSSpeak(c, audioPassThruEnded, ctx);
    Step(f.cmd, f.effects + [BaseTimeOut])
  }

  /** The end of on_event: respond once nothing is awaited any more. */
  function Respond(c: Command, effects: seq<Effect>, ctx: Context): Step
  {
    if IsWaitingHMIResponse(c) then Step(c, effects)
    else
      var p := PrepareResponseParameters(c.resultUi, c.resultTtsSpeak, c.uiInfo, c.ttsInfo,
                                         c.audioPassThruIconExists, ctx.env);
      Step(c.(ttsInfo := p.ttsInfo),
           effects + [Response(p.success, p.code, if p.info == "" then None else Some(p.info))])
  }

  /** on_event for one HMI event. */
  function OnEvent(c: Command, e: Event, audioPassThruEnded: bool, ctx: Context): Step
  {
    match e.id
    case UiPerformAudioPassThru => OnPerformAudioPassThruResponse(c, e, audioPassThruEnded, ctx)
    case TtsSpeak => OnSpeakResponse(c, e, ctx)
    case TtsOnResetTimeout =>
      Respond(c, [UpdateTimeout(ctx.connectionKey, ctx.correlationId, c.defaultTimeout)], ctx)
    case OtherFunction(_) => Step(c, [])
  }

  /** on_event for the UI.PerformAudioPassThru response. */
  function OnPerformAudioPassThruResponse(c: Command, e: Event, audioPassThruEnded: bool,
                                          ctx: Context): Step
  {
    var c1 := c.(awaitingUiResponse := false, resultUi := e.code,
                 uiInfo := ctx.env.getInfo(e.info, c.uiInfo));
    if e.code == Rejected then
      Step(c1, [Response(false, ctx.env.hmiToMobileResult(Rejected), None)])
    else
      var f := FinishTTSSpeak(c1, audioPassThruEnded, ctx);
      Respond(f.cmd, f.effects, ctx)
  }

  /** on_event for the TTS.Speak response. */
  function OnSpeakResponse(c: Command, e: Event, ctx: Context): Step
  {
    var c1 := c.(resultTtsSpeak := e.code, ttsInfo := ctx.env.getInfo(e.info, c.ttsInfo),
                 awaitingTtsSpeakResponse := false);
    Respond(c1,
            if StartsRecording(e.code) then
              [RecordStart(ctx.connectionKey), StartMicrophoneOf(c1.message, ctx),
               UpdateTimeout(ctx.connectionKey, ctx.correlationId, c1.defaultTimeout)]
            else [],
            ctx)
  }

  /** A sequence of deliveries handed to on_event one after the other. */
  function Replay(c: Command, ds: seq<Delivery>, ctx: Context): Step
    decreases |ds|
  {
    if ds == [] then Step(c, [])
    else
      var first := OnEvent(c, ds[0].event, ds[0].audioPassThruEnded, ctx);
      var rest := Replay(first.cmd, ds[1..], ctx);
      Step(rest.cmd, first.effects + rest.effects)
  }

  predicate HasResponse(effects: seq<Effect>)
  {
    exists k :: 0 <= k < |effects| && effects[k].Response?
  }

  predicate IsHmiRequest(e: Effect)
  {
    e.SpeakRequest? || e.PerformRequest?
  }

  predicate Delivers(ds: seq<Delivery>, id: EventId)
  {
    exists i :: 0 <= i < |ds| && ds[i].event.id == id
  }

  // ---------------------------------------------------------------------
  // Init and Run

  /** Init adds max_duration to the default timeout, wrapping at 32 bits. */
  lemma InitExtendsTimeout(c: Command)
    ensures Init(c).defaultTimeout == (c.defaultTimeout + c.message.maxDuration) % UINT32_LIMIT
    ensures c.defaultTimeout + c.message.maxDuration < UINT32_LIMIT ==>
              Init(c).defaultTimeout == c.defaultTimeout + c.message.maxDuration
    ensures Init(c).(defaultTimeout := c.defaultTimeout) == c
  {
  }

  /**
   * Validation is ordered and terminal: a request that fails a check gets one
   * failed response, with the code of the first check it fails, and no HMI
   * traffic; the fields are left as they were.
   */
  lemma ValidationIsTerminal(c: Command, app: Option<App>, ctx: Context)
    requires !Admitted(c, app, ctx.env)
    ensures var code := if app.None? then MobileApplicationNotRegistered
                        else if app.value.hmiLevel == HmiNone then MobileRejected
                        else MobileInvalidData;
            Run(c, app, ctx) == Step(c, [Response(false, code, None)])
  {
  }

  /**
   * An admitted request awaits the UI. With a prompt, Speak is sent (and
   * awaited) before PerformAudioPassThru; without, PerformAudioPassThru,
   * OnRecordStart and the capture follow in that order and the TTS flag is
   * left as it was. No response is sent yet.
   */
  lemma DispatchOrder(c: Command, app: Option<App>, ctx: Context)
    requires Admitted(c, app, ctx.env)
    ensures var s := Run(c, app, ctx);
            var perform := PerformRequest(PerformParamsOf(s.cmd.message, ctx.connectionKey));
            s.cmd.awaitingUiResponse && !HasResponse(s.effects) &&
            s.cmd.resultUi == c.resultUi && s.cmd.resultTtsSpeak == c.resultTtsSpeak &&
            s.cmd.uiInfo == c.uiInfo && s.cmd.ttsInfo == c.ttsInfo &&
            s.cmd.defaultTimeout == c.defaultTimeout &&
            var icon := ProcessAudioPassThruIcon(c, app.value, ctx.env);
            s.cmd.message == icon.message &&
            s.cmd.audioPassThruIconExists == icon.audioPassThruIconExists &&
            s.cmd.message.initialPrompt == c.message.initialPrompt &&
            (HasInitialPrompt(c.message) ==>
               s.cmd.awaitingTtsSpeakResponse &&
               s.effects == [SpeakRequest(ctx.connectionKey, c.message.initialPrompt.value), perform]) &&
            (!HasInitialPrompt(c.message) ==>
               s.cmd.awaitingTtsSpeakResponse == c.awaitingTtsSpeakResponse &&
               s.effects == [perform, RecordStart(ctx.connectionKey),
                             StartMicrophoneOf(s.cmd.message, ctx)])
  {
  }

  /**
   * The icon check in full: audio_pass_thru_icon_exists_ is reset to true; a
   * syntactically bad icon is dropped from the message and not reported as
   * missing; a good one is forwarded, and marked missing exactly when
   * VerifyImage does not answer SUCCESS. Nothing else changes.
   */
  lemma IconHandling(c: Command, app: App, ctx: Context)
    ensures var c1 := ProcessAudioPassThruIcon(c, app, ctx.env);
            match c.message.icon
            case None => c1 == c.(audioPassThruIconExists := true)
            case Some(icon) =>
              if !ctx.env.checkSyntax(icon.value, false) then
                c1 == c.(audioPassThruIconExists := true, message := c.message.(icon := None))
              else
                c1 == c.(audioPassThruIconExists := ctx.env.verifyImage(icon, app) == MobileSuccess)
  {
  }

  // ---------------------------------------------------------------------
  // on_event, FinishTTSSpeak and onTimeOut, one call at a time

  /**
   * A UI event clears only the UI flag, a TTS_Speak event only the TTS flag;
   * TTS_OnResetTimeout and unknown events change no flag.
   */
  lemma EventClearsOnlyItsFlag(c: Command, e: Event, ended: bool, ctx: Context)
    ensures var n := OnEvent(c, e, ended, ctx).cmd;
            n.awaitingUiResponse == (c.awaitingUiResponse && e.id != UiPerformAudioPassThru) &&
            n.awaitingTtsSpeakResponse == (c.awaitingTtsSpeakResponse && e.id != TtsSpeak)
  {
  }

  /**
   * on_event sends a response exactly when the UI rejected, or when a known
   * event leaves nothing awaited; an unknown event changes nothing.
   */
  lemma RespondsExactlyWhenIdle(c: Command, e: Event, ended: bool, ctx: Context)
    ensures var s := OnEvent(c, e, ended, ctx);
            HasResponse(s.effects) <==>
              (e.id == UiPerformAudioPassThru && e.code == Rejected) ||
              (!e.id.OtherFunction? && !IsWaitingHMIResponse(s.cmd))
    ensures e.id.OtherFunction? ==> OnEvent(c, e, ended, ctx) == Step(c, [])
  {
    var s := OnEvent(c, e, ended, ctx);
    if e.id == UiPerformAudioPassThru && e.code == Rejected {
      assert s.effects[0].Response?;
    } else if !e.id.OtherFunction? && !IsWaitingHMIResponse(s.cmd) {
      assert s.effects[|s.effects| - 1].Response?;
    }
  }

  /**
   * What the response carries: once a known event other than a UI REJECTED
   * leaves nothing awaited, the last effect is the response built by
   * PrepareResponseParameters from the stored results and info strings and
   * the icon flag, and tts_info_ takes the value the ladder gave it.
   */
  lemma ResponseCarriesPreparedParameters(c: Command, e: Event, ended: bool, ctx: Context)
    requires !e.id.OtherFunction?
    requires !(e.id == UiPerformAudioPassThru && e.code == Rejected)
    ensures var s := OnEvent(c, e, ended, ctx);
            var t := if e.id == TtsSpeak then ctx.env.getInfo(e.info, c.ttsInfo) else c.ttsInfo;
            var p := PrepareResponseParameters(s.cmd.resultUi, s.cmd.resultTtsSpeak, s.cmd.uiInfo, t,
                                               s.cmd.audioPassThruIconExists, ctx.env);
            !IsWaitingHMIResponse(s.cmd) ==>
              0 < |s.effects| &&
              s.effects[|s.effects| - 1] ==
                Response(p.success, p.code, if p.info == "" then None else Some(p.info)) &&
              s.cmd.ttsInfo == p.ttsInfo
  {
  }

  /**
   * A UI REJECTED is answered at once with the mapped code, even while TTS is
   * still awaited, and neither speech nor capture is stopped.
   */
  lemma UiRejectedRespondsAtOnce(c: Command, e: Event, ended: bool, ctx: Context)
    requires e.id == UiPerformAudioPassThru && e.code == Rejected
    ensures var s := OnEvent(c, e, ended, ctx);
            s.effects == [Response(false, ctx.env.hmiToMobileResult(Rejected), None)] &&
            s.cmd.awaitingTtsSpeakResponse == c.awaitingTtsSpeakResponse
  {
  }

  /**
   * A TTS_Speak outcome in StartsRecording starts the capture (OnRecordStart,
   * microphone, one timeout update with default_timeout_); any other
   * outcome starts none of these.
   */
  lemma SpeechOutcomeStartsRecording(c: Command, e: Event, ended: bool, ctx: Context)
    requires e.id == TtsSpeak
    ensures var s := OnEvent(c, e, ended, ctx);
            var start := [RecordStart(ctx.connectionKey), StartMicrophoneOf(c.message, ctx),
                          UpdateTimeout(ctx.connectionKey, ctx.correlationId, c.defaultTimeout)];
            (StartsRecording(e.code) ==>
               |s.effects| <= 4 && s.effects[..3] == start &&
               forall k :: 3 <= k < |s.effects| ==> s.effects[k].Response?) &&
            (!StartsRecording(e.code) ==>
               |s.effects| <= 1 &&
               forall k :: 0 <= k < |s.effects| ==> s.effects[k].Response?)
  {
  }

  /** TTS_OnResetTimeout re-arms the timeout and changes no field. */
  lemma ResetTimeoutOnlyRearms(c: Command, e: Event, ended: bool, ctx: Context)
    requires e.id == TtsOnResetTimeout && IsWaitingHMIResponse(c)
    ensures OnEvent(c, e, ended, ctx) ==
              Step(c, [UpdateTimeout(ctx.connectionKey, ctx.correlationId, c.defaultTimeout)])
  {
  }

  /**
   * FinishTTSSpeak changes no field; it stops the capture when
   * EndAudioPassThrough reports one, and sends TTS.StopSpeaking exactly while
   * the Speak response is still awaited.
   */
  lemma FinishStopsSpeechOnlyWhileAwaited(c: Command, ended: bool, ctx: Context)
    ensures var s := FinishTTSSpeak(c, ended, ctx);
            s.cmd == c &&
            (StopSpeaking in s.effects <==> c.awaitingTtsSpeakResponse) &&
            (StopAudioPassThru(ctx.connectionKey) in s.effects <==> ended) &&
            |s.effects| <= 2
  {
  }

  /** onTimeOut tears down (FinishTTSSpeak) before the base timeout runs. */
  lemma TimeOutFinishesFirst(c: Command, ended: bool, ctx: Context)
    ensures var s := OnTimeOut(c, ended, ctx);
            var f := FinishTTSSpeak(c, ended, ctx);
            s.cmd == c && s.effects == f.effects + [BaseTimeOut] && !HasResponse(s.effects)
  {
  }

  /**
   * The single response relies on the base request being finished once it has
   * answered: on its own, on_event answers again for a later known event.
   */
  lemma AnswersAgainAfterCompletion(c: Command, e: Event, ended: bool, ctx: Context)
    requires !IsWaitingHMIResponse(c) && e.id == TtsOnResetTimeout
    ensures HasResponse(OnEvent(c, e, ended, ctx).effects)
  {
    var s := OnEvent(c, e, ended, ctx);
    assert s.effects[|s.effects| - 1].Response?;
  }

  /**
   * A capture without a prompt that the UI answers SUCCESS is reported as
   * WARNINGS: TTS was never asked, so its result is still INVALID_ENUM, and
   * the fallback reads "UI SUCCESS, TTS not SUCCESS" as a warning. This holds
   * whenever the collaborators let the request reach the fallback.
   */
  lemma PromptlessSuccessReportsWarnings(c: Command, app: App, ended: bool, ctx: Context,
                                         done: Event)
    requires !IsWaitingHMIResponse(c) && c.resultTtsSpeak == InvalidEnum
    requires Admitted(c, Some(app), ctx.env) && !HasInitialPrompt(c.message)
    requires done.id == UiPerformAudioPassThru && done.code == Success
    requires !TtsUnsupportedWarning(MakeResponseInfo(Success, UiInterface, ctx.env),
                                    MakeResponseInfo(InvalidEnum, TtsInterface, ctx.env))
    requires !ctx.env.isResultCodeUnsupported(MakeResponseInfo(Success, UiInterface, ctx.env),
                                              MakeResponseInfo(InvalidEnum, TtsInterface, ctx.env))
    ensures var run := Run(c, Some(app), ctx);
            var capture := OnEvent(run.cmd, done, ended, ctx);
            0 < |capture.effects| &&
            var last := capture.effects[|capture.effects| - 1];
            last.Response? && last.success == ctx.env.isOk(Success, UiInterface) &&
            last.code == ctx.env.hmiToMobileResult(Warnings)
  {
  }

  /**
   * A UI REJECTED that arrives while the Speak answer is still awaited is
   * answered at once; when the Speak answer then arrives, on_event answers a
   * second time. Only the base request, finished after its first answer,
   * keeps the mobile application from seeing both.
   */
  lemma RejectedThenSpeechAnswersTwice(c: Command, rejected: Event, speech: Event,
                                       ended: bool, ctx: Context)
    requires c.awaitingTtsSpeakResponse
    requires rejected.id == UiPerformAudioPassThru && rejected.code == Rejected
    requires speech.id == TtsSpeak
    ensures var r := Replay(c, [Delivery(rejected, ended), Delivery(speech, ended)], ctx);
            2 <= |r.effects| &&
            r.effects[0] == Response(false, ctx.env.hmiToMobileResult(Rejected), None) &&
            r.effects[|r.effects| - 1].Response?
  {
    var ds := [Delivery(rejected, ended), Delivery(speech, ended)];
    var first := OnEvent(c, rejected, ended, ctx);
    var second := OnEvent(first.cmd, speech, ended, ctx);
    assert ds[1..] == [Delivery(speech, ended)];
    assert Replay(first.cmd, ds[1..], ctx).effects == second.effects;
    assert !IsWaitingHMIResponse(second.cmd);
  }

  /**
   * A capture can start after the UI has already answered: while both answers
   * are awaited, a UI answer (any code) followed by a TTS_Speak outcome in
   * StartsRecording emits OnRecordStart, the capture start and a timeout
   * update, then the response, and no StopAudioPassThru follows it.
   */
  lemma CaptureStartsAfterUiAnswer(c: Command, ui: Event, speech: Event, ended: bool, ctx: Context)
    requires c.awaitingTtsSpeakResponse && c.awaitingUiResponse
    requires ui.id == UiPerformAudioPassThru
    requires speech.id == TtsSpeak && StartsRecording(speech.code)
    ensures var first := OnEvent(c, ui, ended, ctx);
            var second := OnEvent(first.cmd, speech, ended, ctx);
            |second.effects| == 4 &&
            second.effects[..3] == [RecordStart(ctx.connectionKey), StartMicrophoneOf(c.message, ctx),
                                    UpdateTimeout(ctx.connectionKey, ctx.correlationId,
                                                  c.defaultTimeout)] &&
            second.effects[3].Response? &&
            StopAudioPassThru(ctx.connectionKey) !in second.effects
  {
  }

  // ---------------------------------------------------------------------
  // Sequences of events

  /** No event handler ever raises an awaiting flag. */
  lemma {:induction false} FlagsNeverRaised(c: Command, ds: seq<Delivery>, ctx: Context)
    ensures var n := Replay(c, ds, ctx).cmd;
            (n.awaitingUiResponse ==> c.awaitingUiResponse) &&
            (n.awaitingTtsSpeakResponse ==> c.awaitingTtsSpeakResponse)
    decreases |ds|
  {
    if ds != [] {
      var first := OnEvent(c, ds[0].event, ds[0].audioPassThruEnded, ctx);
      EventClearsOnlyItsFlag(c, ds[0].event, ds[0].audioPassThruEnded, ctx);
      FlagsNeverRaised(first.cmd, ds[1..], ctx);
    }
  }

  /** on_event never sends a Speak or PerformAudioPassThru request. */
  lemma EventSendsNoRequest(c: Command, e: Event, ended: bool, ctx: Context)
    ensures forall k :: 0 <= k < |OnEvent(c, e, ended, ctx).effects| ==>
              !IsHmiRequest(OnEvent(c, e, ended, ctx).effects[k])
  {
    match e.id
    case UiPerformAudioPassThru =>
      var c1 := c.(awaitingUiResponse := false, resultUi := e.code,
                   uiInfo := ctx.env.getInfo(e.info, c.uiInfo));
      var f := FinishTTSSpeak(c1, ended, ctx);
      assert forall k :: 0 <= k < |f.effects| ==> !IsHmiRequest(f.effects[k]);
    case TtsSpeak =>
    case TtsOnResetTimeout =>
    case OtherFunction(_) =>
  }

  /** Once dispatched, the command never sends another Speak or PerformAudioPassThru. */
  lemma {:induction false} NoRequestAfterDispatch(c: Command, ds: seq<Delivery>, ctx: Context)
    ensures forall k :: 0 <= k < |Replay(c, ds, ctx).effects| ==>
              !IsHmiRequest(Replay(c, ds, ctx).effects[k])
    decreases |ds|
  {
    if ds != [] {
      var first := OnEvent(c, ds[0].event, ds[0].audioPassThruEnded, ctx);
      EventSendsNoRequest(c, ds[0].event, ds[0].audioPassThruEnded, ctx);
      NoRequestAfterDispatch(first.cmd, ds[1..], ctx);
      var rest := Replay(first.cmd, ds[1..], ctx);
      assert Replay(c, ds, ctx).effects == first.effects + rest.effects;
    }
  }

  /**
   * While something is awaited, delivering the UI answer (and the Speak answer,
   * if Speak is awaited) produces a response.
   */
  lemma {:induction false} AnsweredCommandResponds(c: Command, ds: seq<Delivery>, ctx: Context)
    requires IsWaitingHMIResponse(c)
    requires c.awaitingUiResponse ==> Delivers(ds, UiPerformAudioPassThru)
    requires c.awaitingTtsSpeakResponse ==> Delivers(ds, TtsSpeak)
    ensures HasResponse(Replay(c, ds, ctx).effects)
    decreases |ds|
  {
    var d := ds[0];
    var first := OnEvent(c, d.event, d.audioPassThruEnded, ctx);
    var rest := Replay(first.cmd, ds[1..], ctx);
    assert Replay(c, ds, ctx).effects == first.effects + rest.effects;
    RespondsExactlyWhenIdle(c, d.event, d.audioPassThruEnded, ctx);
    EventClearsOnlyItsFlag(c, d.event, d.audioPassThruEnded, ctx);
    if HasResponse(first.effects) {
      var k :| 0 <= k < |first.effects| && first.effects[k].Response?;
      assert (first.effects + rest.effects)[k].Response?;
    } else {
      var n := first.cmd;
      if n.awaitingUiResponse {
        var i :| 0 <= i < |ds| && ds[i].event.id == UiPerformAudioPassThru;
        assert i != 0;
        assert ds[1..][i - 1].event.id == UiPerformAudioPassThru;
      }
      if n.awaitingTtsSpeakResponse {
        var i :| 0 <= i < |ds| && ds[i].event.id == TtsSpeak;
        assert i != 0;
        assert ds[1..][i - 1].event.id == TtsSpeak;
      }
      AnsweredCommandResponds(n, ds[1..], ctx);
      var k :| 0 <= k < |rest.effects| && rest.effects[k].Response?;
      assert (first.effects + rest.effects)[|first.effects| + k].Response?;
    }
  }

  /**
   * The mobile application is never left waiting: an admitted request whose
   * UI answer (and Speak answer, when it had a prompt) is delivered gets a
   * response, and the fields it ends with await nothing it was not already
   * awaiting after Run.
   */
  lemma AdmittedRequestIsAnswered(c: Command, app: Option<App>, ds: seq<Delivery>, ctx: Context)
    requires !IsWaitingHMIResponse(c)
    requires Admitted(c, app, ctx.env)
    requires Delivers(ds, UiPerformAudioPassThru)
    requires HasInitialPrompt(c.message) ==> Delivers(ds, TtsSpeak)
    ensures var run := Run(c, app, ctx);
            HasResponse(Replay(run.cmd, ds, ctx).effects) &&
            forall k :: 0 <= k < |Replay(run.cmd, ds, ctx).effects| ==>
              !IsHmiRequest(Replay(run.cmd, ds, ctx).effects[k])
  {
    var run := Run(c, app, ctx);
    DispatchOrder(c, app, ctx);
    AnsweredCommandResponds(run.cmd, ds, ctx);
    NoRequestAfterDispatch(run.cmd, ds, ctx);
  }

  /**
   * The prompted capture that succeeds end to end: Speak then capture are
   * requested, speech SUCCESS starts the capture and re-arms the timeout to
   * default_timeout_, capture SUCCESS stops the capture and produces one
   * successful response without info text, given collaborators that treat
   * SUCCESS as plain success and merge empty infos into an empty one.
   */
  lemma SuccessfulPromptedCapture(c: Command, app: App, ctx: Context, speechDone: Event, captureDone: Event)
    requires !IsWaitingHMIResponse(c) && c.resultUi == InvalidEnum && c.resultTtsSpeak == InvalidEnum
    requires c.uiInfo == "" && c.ttsInfo == ""
    requires Admitted(c, Some(app), ctx.env) && HasInitialPrompt(c.message) && c.message.icon.None?
    requires speechDone == Event(TtsSpeak, Success, None)
    requires captureDone == Event(UiPerformAudioPassThru, Success, None)
    requires ctx.env.hmiToMobileResult(Success) == MobileSuccess
    requires ctx.env.isOk(Success, UiInterface) && !ctx.env.isUnsupportedResource(Success, TtsInterface)
    requires !ctx.env.isResultCodeUnsupported(MakeResponseInfo(Success, UiInterface, ctx.env),
                                              MakeResponseInfo(Success, TtsInterface, ctx.env))
    requires ctx.env.getInfo(None, "") == ""
    requires ctx.env.mergeInfos(MakeResponseInfo(Success, UiInterface, ctx.env), "",
                                MakeResponseInfo(Success, TtsInterface, ctx.env), "") == ""
    ensures var run := Run(c, Some(app), ctx);
            var speech := OnEvent(run.cmd, speechDone, false, ctx);
            var capture := OnEvent(speech.cmd, captureDone, true, ctx);
            run.effects == [SpeakRequest(ctx.connectionKey, c.message.initialPrompt.value),
                            PerformRequest(PerformParamsOf(c.message, ctx.connectionKey))] &&
            speech.effects == [RecordStart(ctx.connectionKey), StartMicrophoneOf(c.message, ctx),
                               UpdateTimeout(ctx.connectionKey, ctx.correlationId, c.defaultTimeout)] &&
            capture.effects == [StopAudioPassThru(ctx.connectionKey),
                                Response(true, MobileSuccess, None)]
  {
  }
}
